=== FILE: README.md ===
# NestAPI authorization and record-mutation rules, in Dafny

A model of the rules a small NestJS blogging API puts around its two tables,
users and posts:

- the post ownership state machine of `PostsController`: create forces the
  owner to be the caller; update and delete check existence, then ownership,
  then merge the truthy fields of the body or remove the post;
- admin CRUD over users (`UsersController` and `UsersService`), with
  not-found guards, a truthy-field merge on update and hash-on-write of the
  password, including the double hash an update without a password causes;
- credential validation and the login projection of `AuthService`: unknown
  user, wrong password and a throwing `compare` all give null; success strips
  the password; login signs `{username, id, role}` and returns a public view;
- the session cookie of `AuthController` and the length rules of
  `AuthCredentialsDto`.

Each table is a `Store.Table`: a finite map from id to row plus the SERIAL
counter that hands out ids, so ids are never reused. bcrypt's `hash` and
`compare` and `JwtService.sign` are function values in `Crypto.Primitives`
that every operation takes as a parameter. The salt bcrypt would generate is
a parameter too. Two facts about them are assumed, each only by the lemmas
that state it in their `requires`:

- `Crypto.HashVerifies`: a hash verifies against the plaintext it came from.
  `AuthService.RegisteredUserIsAccepted`, `UsersController.NewPasswordLogsIn`
  and `AuthController.RegisterThenLogin` use it.
- `Crypto.Exact`: this is stronger. `compare` matches a hash only against its own
  plaintext, and no string hashes to itself or to the empty string.
  `UsersController.OmittedPasswordLocksOut` uses it, and `Crypto.ToyIsExact`
  shows that a scheme meeting it exists.

Files: `common.dfy` (Option, Result, the NotFound/Forbidden errors,
truthiness), `store.dfy`, `crypto.dfy`, `routes.dfy` (declared guards and
roles), `users_service.dfy`, `users_controller.dfy`, `posts_controller.dfy`,
`auth_service.dfy`, `auth_controller.dfy`, `auth_dto.dfy`.

Notes on the code as written:

- `UsersController` is guarded by `RolesGuard` alone, with no `JwtAuthGuard`.
- `PostsController` is guarded by `JwtAuthGuard` alone. Its `@Roles('user', 'admin')`
  is never enforced, because no `RolesGuard` runs there.
- `register` returns the created record with its hashed password.
- `register` stores the body's `role` as given, so anyone can register as
  `admin`. A body without `role` gets the column default `user`.

## Model

| member | source | states |
|---|---|---|
| Store.Insert | src/migrations/1724158685803-InitialMigration.ts:7-8 | a new row is stored under the next SERIAL value, which no row of a valid table uses yet; every existing row is kept |
| Store.FindFirst | src/users/users.service.ts:22-25 | the lookup returns a matching row (the lowest id) when one exists, and nothing exactly when no row matches |
| UsersService.FindOne | src/users/users.service.ts:18-20 | returns the row with that id, or nothing exactly when the id is absent |
| UsersService.FindOneByUsername | src/users/users.service.ts:22-25 | returns some stored row with that username, or nothing exactly when no row has it |
| UsersService.FindsSoleHolder | src/users/users.service.ts:22-25 | when only one row holds a username, the lookup by username returns that row |
| UsersService.Create | src/users/users.service.ts:27-32 | the stored password is the hash of the given plaintext; username and role are saved as given; the row gets a fresh id; no other row changes |
| UsersService.Update | src/users/users.service.ts:34-41 | a non-empty password is hashed before the write, an empty one is written as is; only the row at the id changes; the result is the row read back; a missing id changes nothing and reads back nothing |
| UsersService.Delete | src/users/users.service.ts:43-45 | exactly the given id disappears and every other row is kept |
| UsersController.AdminOnly | src/users/users.controller.ts:26-93 | every users route runs behind RolesGuard and declares exactly the role admin |
| UsersController.FindOne | src/users/users.controller.ts:44-50 | the stored user, or NotFound exactly when the id is absent |
| UsersController.Create | src/users/users.controller.ts:56-62 | username and role come from the body (role defaults to the column default 'user'), the stored password is the hash of the body's password, and the new user gets a fresh id |
| UsersController.Update | src/users/users.controller.ts:69-81 | NotFound with the table unchanged for a missing id; otherwise truthy username and role overwrite and absent or empty ones keep the stored value; a supplied password is stored hashed; an omitted one leaves Hash(stored hash) behind; no other user changes |
| UsersController.OmittedPasswordLocksOut | src/users/users.controller.ts:73-80 | under any exact hash scheme (compare matches a hash against its own plaintext and nothing else; no string hashes to itself or to the empty string), a user accepted with password p before an update without a password is rejected with p after it; `Crypto.ToyIsExact` shows such a scheme exists |
| UsersController.UpdateCorrected | src/users/users.controller.ts:77-80 | the intended update: a supplied password is stored hashed, an omitted one keeps the stored hash; the other fields merge as in `UsersController.Update` |
| UsersController.CorrectedUpdateKeepsLogin | src/users/users.controller.ts:77-80 | after the corrected update without a new password or username, the user still logs in with the old password |
| UsersController.NewPasswordLogsIn | src/users/users.controller.ts:78-80 | with either update, a password supplied in the body is the one the user logs in with afterwards |
| UsersController.WriteThenFindOne | src/users/users.controller.ts:44-92 | after create the new user is found under its id; after an update findOne returns what update returned; after delete the id is NotFound |
| UsersController.Delete | src/users/users.controller.ts:87-93 | NotFound with the table unchanged for a missing id; otherwise exactly that user is removed |
| PostsController.RolesDeclaredNotEnforced | src/posts/posts.controller.ts:31-104 | every posts route runs behind JwtAuthGuard only, so declared roles are not checked; reads declare none, writes declare user and admin |
| PostsController.FindOne | src/posts/posts.controller.ts:44-50 | the stored post unchanged, or NotFound exactly when the id is absent |
| PostsController.Create | src/posts/posts.controller.ts:56-65 | the new post's owner is the caller's id, whatever the body holds; title and content come from the body; it gets a fresh id and no other post changes |
| PostsController.Update | src/posts/posts.controller.ts:72-89 | NotFound for a missing id, then Forbidden for a non-owner, both leaving the table unchanged; an owner's truthy title and content overwrite, absent or empty ones keep the old value; id and owner never change; only that post changes |
| PostsController.Delete | src/posts/posts.controller.ts:95-104 | NotFound, then Forbidden, with the table unchanged; an owner's delete removes exactly that key and keeps every other post |
| PostsController.WriteThenFindOne | src/posts/posts.controller.ts:44-103 | after create the new post is found under its id; after an owner's update findOne returns what update returned; after an owner's delete the id is NotFound |
| PostsController.ExistenceBeforeOwnership | src/posts/posts.controller.ts:77-85 | for a missing post, update and delete answer the same whoever asks and whatever the body |
| PostsController.NoAdminBypass | src/posts/posts.controller.ts:94-102 | an admin who does not own the post is Forbidden to update or delete it, with the table unchanged |
| PostsController.UpdateIdempotent | src/posts/posts.controller.ts:86-88 | repeating an update with the same body changes nothing further |
| PostsController.HandleStep | src/posts/posts.controller.ts:60-103 | one request keeps the table valid, never brings back a used key, keeps every post's owner, and changes or removes a post only when it is a write to it by its owner |
| PostsController.RemovedStaysRemoved | src/migrations/1724158685803-InitialMigration.ts:8 | a post id that was handed out and is no longer present never reappears, whatever requests follow |
| PostsController.OnlyOwnerChangesPost | src/posts/posts.controller.ts:80-103 | over any run of requests, a post keeps its owner, and if it ends changed or gone some request in the run was a write to it by its owner |
| AuthService.Decide | src/auth/auth.service.ts:14-40 | unknown user exactly when no row has the name; otherwise the verdict follows the compare outcome on a row with that name: match accepts, mismatch and a thrown error reject |
| AuthService.ValidateUser | src/auth/auth.service.ts:14-40 | a result is a row with that name whose hash matches, with the password removed and id, username and role kept; null when no row with the name matches, including when compare throws |
| AuthService.SoleHolderDecision | src/auth/auth.service.ts:23-38 | for a unique username, validateUser returns the stripped user iff compare matches, and null otherwise |
| AuthService.Login | src/auth/auth.service.ts:42-53 | the token is the signature of exactly username, id and role, and the returned view carries the same three fields and no password |
| AuthService.Register | src/auth/auth.service.ts:55-61 | register is UsersService.create on the body unchanged: the new record gets the next id, the body's username, the hash of the body's password, and the body's role or else the column default 'user'; the created record comes back with its hashed password |
| AuthService.RegisterKeepsBodyRole | src/auth/auth.service.ts:55-58 | a register body asking for the role admin is stored as admin, and a body without a role is stored as user |
| AuthService.RegisteredUserIsAccepted | src/auth/auth.service.ts:24-30 | if a hash verifies its own plaintext, a user registered with password p under an unused name is accepted by validateUser with p, as the new id, the name, and the body's role or else 'user' |
| AuthController.Options | src/auth/auth.controller.ts:22-25 | the cookie is always HTTP-only, and secure exactly when NODE_ENV is 'production' |
| AuthController.Login | src/auth/auth.controller.ts:20-27 | sets the cookie named jwt to the token from AuthService.login with the environment's options; the body is the public user view, not the token |
| AuthController.Logout | src/auth/auth.controller.ts:38-44 | clears the cookie named jwt with the environment's options; the body is the message 'Logged out successfully' |
| AuthController.LogoutClearsLoginCookie | src/auth/auth.controller.ts:39-42 | logout clears the cookie login sets: same name, same flags, under the same environment |
| AuthController.Register | src/auth/auth.controller.ts:32-34 | returns exactly what AuthService.register returns |
| AuthController.RegisterThenLogin | src/auth/auth.controller.ts:20-34 | after registration under an unused name, validation succeeds and login sets a jwt cookie signing the new user's claims and returns the user's public view |
| AuthDto.BoundsOf | src/auth/dto/auth.dto.ts:7-18 | IsString, IsNotEmpty, MinLength and MaxLength together accept exactly the non-empty strings whose length lies within the bounds |
| AuthDto.UsernameBounds | src/auth/dto/auth.dto.ts:7-11 | a username is valid iff it is a string of 4 to 20 characters |
| AuthDto.PasswordBounds | src/auth/dto/auth.dto.ts:13-18 | a password is valid iff it is a string of 8 to 32 characters |
| AuthDto.Boundaries | src/auth/dto/auth.dto.ts:7-18 | lengths 4, 20, 8 and 32 are accepted; 3, 21, 7 and 33 are rejected; an empty or missing field is rejected |
| AuthDto.ValidIffBothFields | src/auth/dto/auth.dto.ts:5-19 | the DTO is valid iff the username is a string of 4 to 20 characters and the password a string of 8 to 32 |

## Left out

- `findAll` on both controllers is not modelled. It is a plain listing whose row order the store does not fix.
- src/posts/posts.service.ts is not part of this model. Its `create(userId, post)` takes two arguments but the controller passes one. The model stores the post the controller builds directly.
- The guards and strategies are not part of this model: `JwtAuthGuard`, `LocalAuthGuard`, `RolesGuard` and the JWT and local strategies. `@Roles` is declared route data only. The caller of a posts write is the claim set `Crypto.Claims`. `AuthController.Login` receives the public view that `validateUser` produces.
- bcrypt and `JwtService` are abstract function values. Salt generation is a parameter. Token verification and expiry are not modelled: `AuthService` only signs tokens (src/auth/auth.service.ts:44); verification belongs to the JWT strategy, which is outside this model.
- UsersService.FindOneByUsername: usernames are not unique in the schema, and the store may return any matching row. The model resolves the choice to the lowest id. Its contract promises only "some row with that name", and properties about login assume the name is unique.
- UsersService.Update: the row written is keyed by the route id, and the id inside the record is ignored. The only caller passes the record it loaded for that id.
- AuthService.Register: a client-supplied `id` in the register body is not modelled. TypeORM's `save` handles it in one of two ways. If the id exists, the request overwrites that account's username, hash and role. If the id is unused, the row is inserted under it, outside the SERIAL sequence. A later insert can then collide with it, which breaks the fresh-id fact `Store.Insert` states for the users table.
- The `posts`/`user` relations loaded alongside records are not modelled.
- UsersService.Update: the model assumes the write at src/users/users.service.ts:39 accepts the record `UsersController.Update` loaded with its `posts` relation (src/users/users.service.ts:19). TypeORM's `update` sets columns only and may refuse a record that carries a relation property; then every `PUT /users/:id` fails with a server error and writes nothing. The entity definition and TypeORM are not part of this model.
- The `role = 'user'` class default of `UpdateUserDto` is not applied: an absent field is absent. On create, an absent role takes the `role` column default 'user'.
- AuthDto.UsernameBounds: lengths are counted in Unicode scalar values. class-validator's `MinLength` and `MaxLength` use validator.js `isLength`, which also counts a surrogate pair once, but skips the variation selectors U+FE0E and U+FE0F, which the model counts. A string holding a lone surrogate cannot be a Dafny string at all. The same holds for AuthDto.PasswordBounds.
- UsersController.Delete: the database's refusal is not modelled. `post.userId` references `user.id` with ON DELETE NO ACTION (src/migrations/1724158685803-InitialMigration.ts:9), so deleting a user who still owns a post fails with a server error and keeps the row. The model removes the row, because the users table is modelled apart from the posts table.
- PostsController.Create: the same foreign key refuses a post whose caller id has no user row. The model stores the post, because it does not see the users table.
- UsersController.Create: `CreateUserDto` carries no validators (src/users/dto/create-user.dto.ts:3-12). A body without `password` makes `bcrypt.hash` throw, and one without `username` violates the NOT NULL column. The model's body fields are required strings, so these rejections are not modelled.
- AuthService.Register: the register body is an unvalidated `User` (src/auth/auth.controller.ts:32), so the same missing-password and missing-username rejections apply and are not modelled. The same holds for a `CreatePostDto` without `title` or `content` in PostsController.Create.
- Also not modelled: logging (including the plaintext password logged by `validateUser`), Swagger decorators, the admin module, startup seeding, `custom-exceptions.ts`, string-to-number coercion of route ids, and concurrent requests.

## Findings

| source | as written | input that shows it | evidently intended | confidence | as-written member | corrected member |
|---|---|---|---|---|---|---|
| src/users/users.controller.ts:73-80 | an update whose body has no password passes the loaded record, stored hash included, to `UsersService.update`, which hashes any non-empty password, so the hash is hashed again | `PUT /users/1` with body `{ role: "admin" }` for a user stored with `Hash(p)`: afterwards the row holds `Hash(Hash(p))` and logging in with `p` is rejected, provided the repository write accepts the loaded record with its `posts` relation | the stored hash is kept when the body carries no password | high if the write with the loaded `posts` relation goes through, which TypeORM may refuse (not executed) | UsersController.OmittedPasswordLocksOut | UsersController.UpdateCorrected |

=== FILE: auth_controller.dfy ===
/** `AuthController`: the session cookie set on login and cleared on
    logout, and the three response bodies. The environment is the one input
    the cookie flags depend on. */
module AuthController {
  import opened Common
  import opened Crypto
  import opened UsersService
  import AuthService

  const CookieName := "jwt"

  const LoggedOutMessage := "Logged out successfully"

  /** The process environment, reduced to `NODE_ENV`, which may be unset. */
  datatype Env = Env(nodeEnv: Option<string>)

  datatype CookieOptions = CookieOptions(httpOnly: bool, secure: bool)

  /** `res.cookie(name, value, options)` or `res.clearCookie(name, options)`. */
  datatype CookieOp =
    | SetCookie(name: string, value: string, options: CookieOptions)
    | ClearCookie(name: string, options: CookieOptions)

  /** What `res.send` is given. */
  datatype Body = UserBody(user: AuthService.PublicUser) | MessageBody(message: string)

  datatype Response = Response(cookie: CookieOp, body: Body)

  /** The cookie is always HTTP-only, and secure exactly in production. */
  function Options(env: Env): (o: CookieOptions)
    ensures o.httpOnly
    ensures o.secure <==> env.nodeEnv == Some("production")
  {
    CookieOptions(true, env.nodeEnv == Some("production"))
  }

  /** `login(req, res)`: the token from `AuthService.login` goes into the
      `jwt` cookie; the body is the public view of the user, not the token. */
  function Login(env: Env, c: Primitives, user: AuthService.PublicUser): (r: Response)
    ensures r.cookie.SetCookie? && r.cookie.name == CookieName && r.cookie.options == Options(env)
    ensures r.cookie.value == AuthService.Login(c, user).token
    ensures r.body == UserBody(AuthService.Login(c, user).user)
  {
    var result := AuthService.Login(c, user);
    Response(SetCookie(CookieName, result.token, Options(env)), UserBody(result.user))
  }

  /** `logout(req, res)`: clears the `jwt` cookie and confirms. */
  function Logout(env: Env): (r: Response)
    ensures r.cookie.ClearCookie? && r.cookie.name == CookieName && r.cookie.options == Options(env)
    ensures r.body == MessageBody(LoggedOutMessage)
  {
    Response(ClearCookie(CookieName, Options(env)), MessageBody(LoggedOutMessage))
  }

  /** `register(user)`: whatever `AuthService.register` returns. */
  function Register(t: UserTable, c: Primitives, salt: Salt, user: NewUser): (r: (UserTable, User))
    ensures r == AuthService.Register(t, c, salt, user)
  {
    AuthService.Register(t, c, salt, user)
  }

  /** Logout clears the very cookie login sets: same name, same flags, under
      the same environment. */
  lemma LogoutClearsLoginCookie(env: Env, c: Primitives, user: AuthService.PublicUser)
    ensures Logout(env).cookie.name == Login(env, c, user).cookie.name
    ensures Logout(env).cookie.options == Login(env, c, user).cookie.options
  {
  }

  /** Register, validate, log in: the cookie carries the signature of the new
      user's claims and the body is the user's public view, under the id the
      table handed out. */
  lemma RegisterThenLogin(t: UserTable, env: Env, c: Primitives, salt: Salt, user: NewUser)
    requires HashVerifies(c)
    requires forall k :: k in t.rows ==> t.rows[k].username != user.username
    ensures var validated := AuthService.ValidateUser(Register(t, c, salt, user).0, c, user.username, user.password);
            && validated.Some?
            && Login(env, c, validated.value) ==
               Response(SetCookie(CookieName, c.sign(Claims(user.username, t.nextId, user.role.GetOr(DefaultRole))), Options(env)),
                        UserBody(AuthService.PublicUser(t.nextId, user.username, user.role.GetOr(DefaultRole))))
  {
    AuthService.RegisteredUserIsAccepted(t, c, salt, user);
  }
}

=== FILE: auth_dto.dfy ===
/** `AuthCredentialsDto`: the class-validator decorators on each field,
    given a meaning, and the length bounds they amount to. */
module AuthDto {

  /** A body field as the validator sees it: missing (or null), a string, or
      some other JSON value. */
  datatype Field = Missing | Str(s: string) | NonString

  /** The decorators used on the two fields. */
  datatype Rule = IsString | IsNotEmpty | MinLength(n: nat) | MaxLength(n: nat)

  /** When a single decorator accepts a field. `IsNotEmpty` refuses only
      missing values and the empty string; the length rules require a
      string. */
  predicate Holds(rule: Rule, f: Field) {
    match rule
    case IsString => f.Str?
    case IsNotEmpty => !f.Missing? && f != Str("")
    case MinLength(n) => f.Str? && |f.s| >= n
    case MaxLength(n) => f.Str? && |f.s| <= n
  }

  /** A field passes when every decorator on it holds. */
  predicate Satisfies(rules: seq<Rule>, f: Field) {
    forall i :: 0 <= i < |rules| ==> Holds(rules[i], f)
  }

  const UsernameRules: seq<Rule> := [IsString, IsNotEmpty, MinLength(4), MaxLength(20)]

  const PasswordRules: seq<Rule> := [IsString, IsNotEmpty, MinLength(8), MaxLength(32)]

  datatype AuthCredentialsDto = AuthCredentialsDto(username: Field, password: Field)

  /** The DTO validates when each field passes its own decorators. */
  predicate Valid(dto: AuthCredentialsDto) {
    Satisfies(UsernameRules, dto.username) && Satisfies(PasswordRules, dto.password)
  }

  /** A field passes a string, not-empty, min and max list exactly when it is
      a string whose length lies in [min, max] and is not zero. */
  lemma BoundsOf(f: Field, lo: nat, hi: nat)
    ensures Satisfies([IsString, IsNotEmpty, MinLength(lo), MaxLength(hi)], f)
            <==> f.Str? && f.s != "" && lo <= |f.s| <= hi
  {
    var rules := [IsString, IsNotEmpty, MinLength(lo), MaxLength(hi)];
    if f.Str? && f.s != "" && lo <= |f.s| <= hi {
      forall i | 0 <= i < |rules|
        ensures Holds(rules[i], f)
      {
      }
    }
    if Satisfies(rules, f) {
      assert Holds(rules[0], f) && Holds(rules[1], f) && Holds(rules[2], f) && Holds(rules[3], f);
    }
  }

  /** A username is valid exactly when it is a string of 4 to 20 characters. */
  lemma UsernameBounds(f: Field)
    ensures Satisfies(UsernameRules, f) <==> f.Str? && 4 <= |f.s| <= 20
  {
    BoundsOf(f, 4, 20);
  }

  /** A password is valid exactly when it is a string of 8 to 32 characters. */
  lemma PasswordBounds(f: Field)
    ensures Satisfies(PasswordRules, f) <==> f.Str? && 8 <= |f.s| <= 32
  {
    BoundsOf(f, 8, 32);
  }

  function Repeat(n: nat): (s: string)
    ensures |s| == n
  {
    seq(n, _ => 'a')
  }

  /** Lengths 4 and 20, 8 and 32 pass; 3 and 21, 7 and 33 fail; the empty
      string and a missing field fail for both. */
  lemma Boundaries()
    ensures Satisfies(UsernameRules, Str(Repeat(4))) && Satisfies(UsernameRules, Str(Repeat(20)))
    ensures !Satisfies(UsernameRules, Str(Repeat(3))) && !Satisfies(UsernameRules, Str(Repeat(21)))
    ensures Satisfies(PasswordRules, Str(Repeat(8))) && Satisfies(PasswordRules, Str(Repeat(32)))
    ensures !Satisfies(PasswordRules, Str(Repeat(7))) && !Satisfies(PasswordRules, Str(Repeat(33)))
    ensures !Satisfies(UsernameRules, Str("")) && !Satisfies(PasswordRules, Str(""))
    ensures !Satisfies(UsernameRules, Missing) && !Satisfies(PasswordRules, Missing)
  {
    UsernameBounds(Str(Repeat(4)));
    UsernameBounds(Str(Repeat(20)));
    UsernameBounds(Str(Repeat(3)));
    UsernameBounds(Str(Repeat(21)));
    PasswordBounds(Str(Repeat(8)));
    PasswordBounds(Str(Repeat(32)));
    PasswordBounds(Str(Repeat(7)));
    PasswordBounds(Str(Repeat(33)));
    UsernameBounds(Str(""));
    PasswordBounds(Str(""));
    UsernameBounds(Missing);
    PasswordBounds(Missing);
  }

  /** The DTO is valid iff both field conditions hold. */
  lemma ValidIffBothFields(dto: AuthCredentialsDto)
    ensures Valid(dto) <==> (dto.username.Str? && 4 <= |dto.username.s| <= 20)
                            && (dto.password.Str? && 8 <= |dto.password.s| <= 32)
  {
    UsernameBounds(dto.username);
    PasswordBounds(dto.password);
  }
}

=== FILE: auth_service.dfy ===
/** `AuthService`: credential validation, the login payload and view, and
    registration. */
module AuthService {
  import opened Common
  import opened Crypto
  import opened UsersService

  /** A user record with the password column removed. */
  datatype PublicUser = PublicUser(id: int, username: string, role: string)

  /** The outcome of `validateUser`, keeping apart the three ways it returns
      null: no such user, a wrong password, a `compare` that threw. */
  datatype Verdict = Accepted(user: PublicUser) | UnknownUser | WrongPassword | CompareThrew

  /** `{ token, user: { id, username, role } }`. */
  datatype LoginResult = LoginResult(token: string, user: PublicUser)

  /** `const { password, ...result } = user`. */
  function Strip(u: User): PublicUser {
    PublicUser(u.id, u.username, u.role)
  }

  /** The JWT payload built from a user. */
  function ClaimsOf(u: PublicUser): Claims {
    Claims(u.username, u.id, u.role)
  }

  /** The verdict `v` is what a `compare` outcome on the row `u` leads to. */
  predicate Explains(v: Verdict, outcome: CompareOutcome, u: User) {
    match outcome
    case Match => v == Accepted(Strip(u))
    case Mismatch => v == WrongPassword
    case Threw => v == CompareThrew
  }

  /** Look the user up by name; compare the candidate with the stored hash;
      accept only when the comparison succeeds. */
  function Decide(t: UserTable, c: Primitives, username: string, pass: string): (v: Verdict)
    ensures v.UnknownUser? <==> forall k :: k in t.rows ==> t.rows[k].username != username
    ensures !v.UnknownUser? ==>
      exists k :: k in t.rows && t.rows[k].username == username
                  && Explains(v, c.compare(pass, t.rows[k].password), t.rows[k])
  {
    match FindOneByUsername(t, username)
    case None => UnknownUser
    case Some(u) =>
      match c.compare(pass, u.password)
      case Match => Accepted(Strip(u))
      case Mismatch => WrongPassword
      case Threw => CompareThrew
  }

  /** `validateUser(username, pass)`: the stripped record of a user with that
      name whose stored hash matches, or null. An unknown name, a mismatch
      and a throwing `compare` all give null. */
  function ValidateUser(t: UserTable, c: Primitives, username: string, pass: string): (r: Option<PublicUser>)
    ensures r.Some? ==>
      exists k :: k in t.rows && t.rows[k].username == username
                  && c.compare(pass, t.rows[k].password) == Match
                  && r.value == Strip(t.rows[k])
    ensures (forall k :: k in t.rows && t.rows[k].username == username ==>
               c.compare(pass, t.rows[k].password) != Match) ==> r.None?
    ensures r.None? <==> !Decide(t, c, username, pass).Accepted?
  {
    match Decide(t, c, username, pass)
    case Accepted(u) => Some(u)
    case _ => None
  }

  /** With a unique username the decision is exact: the user is accepted iff
      `compare` matches, and then the result is that user without the
      password. */
  lemma SoleHolderDecision(t: UserTable, c: Primitives, id: int, pass: string)
    requires id in t.rows && SoleHolder(t, id, t.rows[id].username)
    ensures var outcome := c.compare(pass, t.rows[id].password);
            Explains(Decide(t, c, t.rows[id].username, pass), outcome, t.rows[id])
    ensures ValidateUser(t, c, t.rows[id].username, pass) ==
            (if c.compare(pass, t.rows[id].password) == Match then Some(Strip(t.rows[id])) else None)
  {
    FindsSoleHolder(t, id, t.rows[id].username);
  }

  /** `login(user)`: the token signs exactly `{ username, id, role }` of the
      user, and the view returned beside it carries the same three fields. */
  function Login(c: Primitives, user: PublicUser): (r: LoginResult)
    ensures r.user == user
    ensures r.token == c.sign(Claims(r.user.username, r.user.id, r.user.role))
  {
    LoginResult(c.sign(ClaimsOf(user)), PublicUser(user.id, user.username, user.role))
  }

  /** `register(user)`: `{ ...user, password: user.password }` is the body
      itself, so this is `UsersService.create`. The role is stored as the
      body gives it, or the column default when the body has none, and the
      created record comes back with its hashed password. */
  function Register(t: UserTable, c: Primitives, salt: Salt, user: NewUser): (r: (UserTable, User))
    ensures r == UsersService.Create(t, Draft(user), c, salt)
    ensures r.1.id == t.nextId
    ensures r.1.password == c.hash(user.password, salt)
    ensures r.1.username == user.username
    ensures r.1.role == user.role.GetOr(DefaultRole)
  {
    var body := user.(password := user.password);
    UsersService.Create(t, Draft(body), c, salt)
  }

  /** Nothing checks the role a register body carries: anyone can register
      as `admin`, while a body without a role gets `user`. */
  lemma RegisterKeepsBodyRole(t: UserTable, c: Primitives, salt: Salt, name: string, pass: string)
    ensures Register(t, c, salt, NewUser(name, pass, Some("admin"))).1.role == "admin"
    ensures Register(t, c, salt, NewUser(name, pass, None)).1.role == "user"
  {
  }

  /** A user registered with plaintext `p` under a name nobody else holds is
      accepted by `validateUser(name, p)`, given only that a bcrypt hash
      verifies against its own plaintext. */
  lemma RegisteredUserIsAccepted(t: UserTable, c: Primitives, salt: Salt, user: NewUser)
    requires HashVerifies(c)
    requires forall k :: k in t.rows ==> t.rows[k].username != user.username
    ensures ValidateUser(Register(t, c, salt, user).0, c, user.username, user.password)
            == Some(PublicUser(t.nextId, user.username, user.role.GetOr(DefaultRole)))
  {
    var created := Register(t, c, salt, user);
    assert SoleHolder(created.0, t.nextId, user.username);
    assert c.compare(user.password, c.hash(user.password, salt)) == Match;
    SoleHolderDecision(created.0, c, t.nextId, user.password);
  }
}

=== FILE: common.dfy ===
/** Shapes shared by every controller: optional values, the two HTTP
    exceptions the handlers raise, and JavaScript truthiness of the
    optional string fields of a request body. */
module Common {

  datatype Option<+T> = None | Some(value: T) {

    /** The value, or `default` when absent. */
    function GetOr(default: T): T {
      match this
      case Some(v) => v
      case None => default
    }
  }

  /** `NotFoundException` (404) and `ForbiddenException` (403). */
  datatype ApiError = NotFound | Forbidden

  /** A handler either returns a value or throws one of the two exceptions. */
  datatype Result<+T> = Ok(value: T) | Err(error: ApiError)

  /** What a handler leaves behind: the store after the call, and its answer. */
  datatype Step<S, +T> = Step(state: S, result: Result<T>)

  /** `if (dto.field)` on an optional string field: a missing field and the
      empty string are both falsy. */
  predicate Truthy(field: Option<string>) {
    field.Some? && field.value != ""
  }

  /** `if (dto.field) record.field = dto.field;` */
  function Merge(current: string, field: Option<string>): string {
    if Truthy(field) then field.value else current
  }
}

=== FILE: crypto.dfy ===
/** The foreign primitives the services call: bcrypt's `hash` and
    `compare`, and `JwtService.sign`. They are left abstract: every
    operation that uses them takes them as a parameter. */
module Crypto {

  /** A bcrypt salt as returned by `genSalt`; the model takes it as input
      instead of generating it. */
  type Salt = string

  /** The JWT payload `{ username, id, role }`. */
  datatype Claims = Claims(username: string, id: int, role: string)

  /** `bcrypt.compare` resolves true or false, or throws (for example on a
      stored value that is not a well-formed hash). */
  datatype CompareOutcome = Match | Mismatch | Threw

  datatype Primitives = Primitives(
    hash: (string, Salt) -> string,
    compare: (string, string) -> CompareOutcome,
    sign: Claims -> string)

  /** The one fact assumed of bcrypt: a hash verifies against the plaintext
      it was made from, whatever the salt. */
  ghost predicate HashVerifies(c: Primitives) {
    forall plain, salt :: c.compare(plain, c.hash(plain, salt)) == Match
  }

  /** A hash scheme that verifies a hash against its own plaintext and
      nothing else, and never hashes a string to itself or to "". bcrypt is
      meant to behave this way. */
  ghost predicate Exact(c: Primitives) {
    && (forall p, q, s :: c.compare(p, c.hash(q, s)) == Match <==> p == q)
    && (forall p, s :: c.hash(p, s) != p && c.hash(p, s) != "")
  }

  /** A concrete exact scheme, so assuming one is not vacuous: the hash is the
      plaintext behind a `$`, and compare matches exactly that. */
  function ToyHash(plain: string, salt: Salt): string {
    "$" + plain
  }

  function ToyCompare(plain: string, stored: string): CompareOutcome {
    if stored == "$" + plain then Match else Mismatch
  }

  function Toy(): Primitives {
    Primitives(ToyHash, ToyCompare, (claims: Claims) => claims.username)
  }

  lemma ToyIsExact()
    ensures Exact(Toy()) && HashVerifies(Toy())
  {
    forall p: string, s: Salt
      ensures ToyHash(p, s) != p
    {
      assert |ToyHash(p, s)| == |p| + 1;
    }
    forall p: string, q: string, s: Salt
      ensures ToyCompare(p, ToyHash(q, s)) == Match <==> p == q
    {
      if ToyCompare(p, ToyHash(q, s)) == Match {
        assert ("$" + q)[1..] == q && ("$" + p)[1..] == p;
      }
    }
  }
}

=== FILE: posts_controller.dfy ===
/** `PostsController`: reads for every authenticated caller, and an
    ownership state machine for writes. Existence is checked before
    ownership, ownership is strict equality of ids, and a successful write
    touches only the post it names. */
module PostsController {
  import opened Common
  import opened Crypto
  import Store
  import Routes

  /** A row of the `post` table; `userId` is the owner. */
  datatype Post = Post(id: int, title: string, content: string, userId: int)

  type PostTable = Store.Table<Post>

  datatype CreatePostDto = CreatePostDto(title: string, content: string)

  datatype UpdatePostDto = UpdatePostDto(title: Option<string>, content: Option<string>)

  function IdOf(p: Post): int { p.id }

  /** The whole controller runs behind `JwtAuthGuard` only; reads declare no
      roles, writes declare `user` and `admin`. */
  function Route(h: Routes.Handler): Routes.RouteMeta {
    match h
    case FindAll => Routes.RouteMeta({Routes.JwtAuthGuard}, {})
    case FindOne => Routes.RouteMeta({Routes.JwtAuthGuard}, {})
    case _ => Routes.RouteMeta({Routes.JwtAuthGuard}, {"user", "admin"})
  }

  /** No posts route runs `RolesGuard`, so the declared roles are never
      checked; writes declare both roles, reads none. */
  lemma RolesDeclaredNotEnforced(h: Routes.Handler)
    ensures !Routes.RolesEnforced(Route(h))
    ensures Route(h).guards == {Routes.JwtAuthGuard}
    ensures Route(h).roles == (if h == Routes.FindAll || h == Routes.FindOne then {} else {"user", "admin"})
  {
  }

  /** `findOne(id)`: the stored post unchanged, or NotFound. */
  function FindOne(t: PostTable, id: int): (r: Result<Post>)
    ensures r.Ok? <==> id in t.rows
    ensures r.Ok? ==> r.value == t.rows[id]
    ensures r.Err? ==> r.error == NotFound
  {
    match Store.Get(t, id)
    case None => Err(NotFound)
    case Some(p) => Ok(p)
  }

  /** `create(req, dto)`: title and content come from the body, the owner is
      always the caller; the post gets a fresh id and no other post changes. */
  function Create(t: PostTable, actor: Claims, dto: CreatePostDto): (r: Step<PostTable, Post>)
    ensures r.result.Ok?
    ensures r.result.value.userId == actor.id
    ensures r.result.value.title == dto.title && r.result.value.content == dto.content
    ensures r.result.value.id == t.nextId
    ensures r.state.rows.Keys == t.rows.Keys + {t.nextId}
    ensures r.state.rows[t.nextId] == r.result.value
    ensures r.state.nextId == t.nextId + 1
    ensures forall k :: k in t.rows && k != t.nextId ==> r.state.rows[k] == t.rows[k]
    ensures Store.WellFormed(t, IdOf) ==> t.nextId !in t.rows && Store.WellFormed(r.state, IdOf)
  {
    var post := Post(t.nextId, dto.title, dto.content, actor.id);
    Step(Store.Insert(t, post), Ok(post))
  }

  /** `update(req, id, dto)`: NotFound for a missing id whoever asks, then
      Forbidden for anyone but the owner, both leaving the table alone;
      otherwise the truthy fields of the body overwrite title and content,
      id and owner stay, and only that post changes. */
  function Update(t: PostTable, actor: Claims, id: int, dto: UpdatePostDto): (r: Step<PostTable, Post>)
    ensures id !in t.rows ==> r == Step(t, Err(NotFound))
    ensures id in t.rows && t.rows[id].userId != actor.id ==> r == Step(t, Err(Forbidden))
    ensures r.state.rows.Keys == t.rows.Keys && r.state.nextId == t.nextId
    ensures id in t.rows && t.rows[id].userId == actor.id ==>
              && r.result == Ok(r.state.rows[id])
              && r.state.rows[id].id == t.rows[id].id
              && r.state.rows[id].userId == t.rows[id].userId
              && (Truthy(dto.title) ==> r.state.rows[id].title == dto.title.value)
              && (!Truthy(dto.title) ==> r.state.rows[id].title == t.rows[id].title)
              && (Truthy(dto.content) ==> r.state.rows[id].content == dto.content.value)
              && (!Truthy(dto.content) ==> r.state.rows[id].content == t.rows[id].content)
    ensures forall k :: k in t.rows && k != id ==> r.state.rows[k] == t.rows[k]
    ensures Store.WellFormed(t, IdOf) ==> Store.WellFormed(r.state, IdOf)
  {
    match Store.Get(t, id)
    case None => Step(t, Err(NotFound))
    case Some(existing) =>
      if existing.userId != actor.id then Step(t, Err(Forbidden))
      else
        var merged := existing.(title := Merge(existing.title, dto.title),
                                content := Merge(existing.content, dto.content));
        var t' := Store.Update(t, id, merged);
        Step(t', Ok(merged))
  }

  /** `delete(req, id)`: NotFound, then Forbidden, as for update; an owner's
      delete removes exactly that key. */
  function Delete(t: PostTable, actor: Claims, id: int): (r: Step<PostTable, ()>)
    ensures id !in t.rows ==> r == Step(t, Err(NotFound))
    ensures id in t.rows && t.rows[id].userId != actor.id ==> r == Step(t, Err(Forbidden))
    ensures id in t.rows && t.rows[id].userId == actor.id ==>
              r.result == Ok(()) && r.state.rows.Keys == t.rows.Keys - {id}
    ensures r.state.nextId == t.nextId
    ensures forall k :: k in r.state.rows ==> r.state.rows[k] == t.rows[k]
    ensures Store.WellFormed(t, IdOf) ==> Store.WellFormed(r.state, IdOf)
  {
    match Store.Get(t, id)
    case None => Step(t, Err(NotFound))
    case Some(existing) =>
      if existing.userId != actor.id then Step(t, Err(Forbidden))
      else Step(Store.Delete(t, id), Ok(()))
  }

  /** A missing post is reported as NotFound before ownership is looked at:
      the answer does not depend on who asks or what they send. */
  lemma ExistenceBeforeOwnership(t: PostTable, id: int, a: Claims, b: Claims, d: UpdatePostDto, e: UpdatePostDto)
    requires id !in t.rows
    ensures Update(t, a, id, d) == Update(t, b, id, e)
    ensures Delete(t, a, id) == Delete(t, b, id)
  {
  }

  /** The `admin` role declared on the write routes grants nothing: an admin
      who does not own the post is refused like anyone else. */
  lemma NoAdminBypass(t: PostTable, actor: Claims, id: int, dto: UpdatePostDto)
    requires actor.role == "admin"
    requires id in t.rows && t.rows[id].userId != actor.id
    ensures Update(t, actor, id, dto) == Step(t, Err(Forbidden))
    ensures Delete(t, actor, id) == Step(t, Err(Forbidden))
  {
  }

  /** Repeating an owner's update changes nothing further. */
  lemma UpdateIdempotent(t: PostTable, actor: Claims, id: int, dto: UpdatePostDto)
    ensures var once := Update(t, actor, id, dto);
            Update(once.state, actor, id, dto) == once
  {
    var once := Update(t, actor, id, dto);
    if id in t.rows && t.rows[id].userId == actor.id {
      var twice := Update(once.state, actor, id, dto);
      assert twice.state.rows[id] == once.state.rows[id];
      assert twice.state.rows == once.state.rows;
    }
  }

  /** Reading back after a write: a created post is found under its new id,
      an owner's update is what `findOne` returns next, and after an owner's
      delete the id is NotFound. */
  lemma WriteThenFindOne(t: PostTable, actor: Claims, dto: CreatePostDto, id: int, upd: UpdatePostDto)
    ensures var created := Create(t, actor, dto);
            FindOne(created.state, created.result.value.id) == created.result
    ensures id in t.rows && t.rows[id].userId == actor.id ==>
              FindOne(Update(t, actor, id, upd).state, id) == Update(t, actor, id, upd).result
    ensures id in t.rows && t.rows[id].userId == actor.id ==>
              FindOne(Delete(t, actor, id).state, id) == Err(NotFound)
  {
  }

  /** A request as the controller receives it, with the caller's claims. */
  datatype Request =
    | CreateRequest(actor: Claims, create: CreatePostDto)
    | UpdateRequest(actor: Claims, id: int, update: UpdatePostDto)
    | DeleteRequest(actor: Claims, id: int)

  function Handle(t: PostTable, req: Request): PostTable {
    match req
    case CreateRequest(actor, dto) => Create(t, actor, dto).state
    case UpdateRequest(actor, id, dto) => Update(t, actor, id, dto).state
    case DeleteRequest(actor, id) => Delete(t, actor, id).state
  }

  /** The table after handling the requests one after another. */
  function Replay(t: PostTable, reqs: seq<Request>): PostTable
    decreases |reqs|
  {
    if reqs == [] then t else Replay(Handle(t, reqs[0]), reqs[1..])
  }

  /** `req` is a write to post `id` by the user with id `owner`. */
  predicate WriteBy(req: Request, id: int, owner: int) {
    (req.UpdateRequest? || req.DeleteRequest?) && req.id == id && req.actor.id == owner
  }

  /** One request keeps the table valid, never hands out a key twice, and
      changes or removes an existing post only when it is a write by that
      post's owner. */
  lemma HandleStep(t: PostTable, req: Request, k: int)
    requires Store.WellFormed(t, IdOf)
    ensures Store.WellFormed(Handle(t, req), IdOf) && Handle(t, req).nextId >= t.nextId
    ensures k !in t.rows && k < t.nextId ==> k !in Handle(t, req).rows
    ensures k in t.rows && k in Handle(t, req).rows ==> Handle(t, req).rows[k].userId == t.rows[k].userId
    ensures k in t.rows && (k !in Handle(t, req).rows || Handle(t, req).rows[k] != t.rows[k]) ==>
              WriteBy(req, k, t.rows[k].userId)
  {
  }

  /** A key that is not in use and already handed out never comes back. */
  lemma {:induction false} RemovedStaysRemoved(t: PostTable, reqs: seq<Request>, k: int)
    requires Store.WellFormed(t, IdOf) && k !in t.rows && k < t.nextId
    ensures k !in Replay(t, reqs).rows
    decreases |reqs|
  {
    if reqs != [] {
      HandleStep(t, reqs[0], k);
      var t1 := Handle(t, reqs[0]);
      RemovedStaysRemoved(t1, reqs[1..], k);
    }
  }

  /** Over any run of requests by any callers, a post keeps its owner, and if
      it ends up changed or gone, some request in the run was a write to it
      by its owner. */
  lemma {:induction false} OnlyOwnerChangesPost(t: PostTable, reqs: seq<Request>, k: int)
    requires Store.WellFormed(t, IdOf) && k in t.rows
    ensures k in Replay(t, reqs).rows ==> Replay(t, reqs).rows[k].userId == t.rows[k].userId
    ensures k !in Replay(t, reqs).rows || Replay(t, reqs).rows[k] != t.rows[k] ==>
              exists i :: 0 <= i < |reqs| && WriteBy(reqs[i], k, t.rows[k].userId)
    decreases |reqs|
  {
    if reqs != [] {
      var owner := t.rows[k].userId;
      var t1 := Handle(t, reqs[0]);
      var rest := reqs[1..];
      HandleStep(t, reqs[0], k);
      assert Replay(t, reqs) == Replay(t1, rest);
      if k in t1.rows {
        OnlyOwnerChangesPost(t1, rest, k);
        var tn := Replay(t1, rest);
        if k !in tn.rows || tn.rows[k] != t.rows[k] {
          if t1.rows[k] != t.rows[k] {
            assert WriteBy(reqs[0], k, owner);
          } else {
            var i :| 0 <= i < |rest| && WriteBy(rest[i], k, owner);
            assert reqs[i + 1] == rest[i];
          }
        }
      } else {
        assert WriteBy(reqs[0], k, owner);
        RemovedStaysRemoved(t1, rest, k);
      }
    }
  }
}

=== FILE: routes.dfy ===
/** Route metadata as the controllers declare it: the guards attached with
    `@UseGuards` and the role names listed with `@Roles`. The guards
    themselves are not part of this model, so this is declared data, not
    enforcement. */
module Routes {

  datatype Guard = JwtAuthGuard | RolesGuard

  /** The five handlers of a CRUD controller. */
  datatype Handler = FindAll | FindOne | Create | Update | Delete

  /** The guards that run before a handler and the roles it declares. */
  datatype RouteMeta = RouteMeta(guards: set<Guard>, roles: set<string>)

  /** Role names are only acted on when a `RolesGuard` runs. */
  predicate RolesEnforced(m: RouteMeta) {
    RolesGuard in m.guards
  }
}

=== FILE: store.dfy ===
/** A relational table with a SERIAL primary key, reduced to what the
    controllers rely on: look a row up by id, insert a row under the next
    sequence value, overwrite an existing row, delete a row, and find the
    first row satisfying a condition. */
module Store {
  import opened Common

  /** Rows by primary key, and the value the key sequence hands out next. */
  datatype Table<T> = Table(rows: map<int, T>, nextId: int)

  /** Every key in use was handed out by the sequence, which starts at 1. */
  predicate Valid<T>(t: Table<T>) {
    1 <= t.nextId && forall k :: k in t.rows ==> 1 <= k < t.nextId
  }

  /** Every row carries its own key in its id column. */
  predicate Keyed<T>(t: Table<T>, key: T -> int) {
    forall k :: k in t.rows ==> key(t.rows[k]) == k
  }

  /** A table as the database keeps it: keys from the sequence, and every row
      carrying its own key. */
  predicate WellFormed<T>(t: Table<T>, key: T -> int) {
    Valid(t) && Keyed(t, key)
  }

  /** `findOne({ where: { id } })`. */
  function Get<T>(t: Table<T>, id: int): (r: Option<T>)
    ensures r.Some? <==> id in t.rows
    ensures r.Some? ==> r.value == t.rows[id]
  {
    if id in t.rows then Some(t.rows[id]) else None
  }

  /** INSERT: the row is stored under the next sequence value, which is
      fresh in a valid table, and every existing row stays as it was. */
  function Insert<T>(t: Table<T>, row: T): (r: Table<T>)
    ensures r.rows.Keys == t.rows.Keys + {t.nextId}
    ensures r.rows[t.nextId] == row
    ensures r.nextId == t.nextId + 1
    ensures forall k :: k in t.rows && k != t.nextId ==> r.rows[k] == t.rows[k]
    ensures Valid(t) ==> t.nextId !in t.rows && Valid(r)
    ensures Valid(t) ==> forall k :: k in t.rows ==> r.rows[k] == t.rows[k]
  {
    Table(t.rows[t.nextId := row], t.nextId + 1)
  }

  /** `update(id, row)`: UPDATE ... WHERE id = id. A missing id matches no
      row and leaves the table alone; otherwise only that row changes. */
  function Update<T>(t: Table<T>, id: int, row: T): (r: Table<T>)
    ensures r.rows.Keys == t.rows.Keys && r.nextId == t.nextId
    ensures id in t.rows ==> r.rows[id] == row
    ensures forall k :: k in t.rows && k != id ==> r.rows[k] == t.rows[k]
    ensures id !in t.rows ==> r == t
    ensures Valid(t) ==> Valid(r)
  {
    if id in t.rows then Table(t.rows[id := row], t.nextId) else t
  }

  /** `delete(id)`: exactly that key disappears, every other row stays. */
  function Delete<T>(t: Table<T>, id: int): (r: Table<T>)
    ensures r.rows.Keys == t.rows.Keys - {id} && r.nextId == t.nextId
    ensures forall k :: k in r.rows ==> r.rows[k] == t.rows[k]
    ensures Valid(t) ==> Valid(r)
  {
    Table(t.rows - {id}, t.nextId)
  }

  /** `findOne({ where: ... })` without an ORDER BY: the store may return
      any matching row. The model fixes the choice to the lowest key. */
  function FindFirst<T>(t: Table<T>, p: T -> bool): (r: Option<int>)
    ensures r.Some? ==> r.value in t.rows && p(t.rows[r.value])
    ensures r.Some? ==> forall k :: k in t.rows && p(t.rows[k]) ==> r.value <= k
    ensures r.None? <==> forall k :: k in t.rows ==> !p(t.rows[k])
  {
    var hits := set k | k in t.rows && p(t.rows[k]);
    assert forall k :: k in t.rows && p(t.rows[k]) ==> k in hits;
    if hits == {} then None else Some(Least(hits))
  }

  /** The smallest element of a non-empty finite set of keys. */
  function Least(s: set<int>): (m: int)
    requires s != {}
    ensures m in s
    ensures forall x :: x in s ==> m <= x
  {
    LeastExists(s);
    var m :| m in s && forall x :: x in s ==> m <= x;
    m
  }

  /** Some element of a non-empty set. */
  lemma Member<T>(s: set<T>) returns (y: T)
    requires s != {}
    ensures y in s
  {
    y :| y in s;
  }

  lemma {:induction false} LeastExists(s: set<int>)
    requires s != {}
    ensures exists m :: m in s && forall x :: x in s ==> m <= x
  {
    var y := Member(s);
    if s == {y} {
      assert forall x :: x in s ==> y <= x;
    } else {
      var rest := s - {y};
      LeastExists(rest);
      var m :| m in rest && forall x :: x in rest ==> m <= x;
      var least := if y < m then y else m;
      forall x | x in s
        ensures least <= x
      {
        if x != y {
          assert x in rest;
        }
      }
      assert least in s;
    }
  }
}

=== FILE: users_controller.dfy ===
/** `UsersController`: admin CRUD over the user table. Every route declares
    the role `admin`, and the controller runs behind `RolesGuard`. */
module UsersController {
  import opened Common
  import opened Crypto
  import opened UsersService
  import Store
  import Routes
  import AuthService

  /** `CreateUserDto`: username, password and an optional role. */
  type CreateUserDto = NewUser

  datatype UpdateUserDto = UpdateUserDto(username: Option<string>, password: Option<string>, role: Option<string>)

  function Route(h: Routes.Handler): Routes.RouteMeta {
    Routes.RouteMeta({Routes.RolesGuard}, {"admin"})
  }

  /** Every users route is behind `RolesGuard` and declares exactly `admin`. */
  lemma AdminOnly(h: Routes.Handler)
    ensures Routes.RolesEnforced(Route(h))
    ensures Route(h).roles == {"admin"}
  {
  }

  /** `findOne(id)`: the stored user, or NotFound. */
  function FindOne(t: UserTable, id: int): (r: Result<User>)
    ensures r.Ok? <==> id in t.rows
    ensures r.Ok? ==> r.value == t.rows[id]
    ensures r.Err? ==> r.error == NotFound
  {
    match UsersService.FindOne(t, id)
    case None => Err(NotFound)
    case Some(u) => Ok(u)
  }

  /** `create(dto)`: username, password and role are copied from the body
      into a new record, which the service stores with the password hashed. */
  function Create(t: UserTable, dto: CreateUserDto, c: Primitives, salt: Salt): (r: Step<UserTable, User>)
    ensures r.result.Ok?
    ensures r.result.value.username == dto.username
    ensures r.result.value.role == (if dto.role.Some? then dto.role.value else DefaultRole)
    ensures r.result.value.password == c.hash(dto.password, salt)
    ensures r.state.rows.Keys == t.rows.Keys + {r.result.value.id}
    ensures r.state.rows[r.result.value.id] == r.result.value
    ensures Store.WellFormed(t, IdOf) ==> r.result.value.id !in t.rows && Store.WellFormed(r.state, IdOf)
    ensures Store.WellFormed(t, IdOf) ==> forall k :: k in t.rows ==> r.state.rows[k] == t.rows[k]
  {
    var created := UsersService.Create(t, Draft(dto), c, salt);
    Step(created.0, Ok(created.1))
  }

  /** `update(id, dto)` as written: the loaded record takes the truthy fields
      of the body and is handed to the service, which hashes whatever
      non-empty password the record carries. When the body has no password,
      that is the stored hash, which gets hashed again. */
  function Update(t: UserTable, id: int, dto: UpdateUserDto, c: Primitives, salt: Salt): (r: Step<UserTable, User>)
    ensures r.state.rows.Keys == t.rows.Keys && r.state.nextId == t.nextId
    ensures id !in t.rows ==> r == Step(t, Err(NotFound))
    ensures id in t.rows ==> r.result == Ok(r.state.rows[id])
    ensures id in t.rows ==> r.state.rows[id].id == id
    ensures id in t.rows && Truthy(dto.username) ==> r.state.rows[id].username == dto.username.value
    ensures id in t.rows && !Truthy(dto.username) ==> r.state.rows[id].username == t.rows[id].username
    ensures id in t.rows && Truthy(dto.role) ==> r.state.rows[id].role == dto.role.value
    ensures id in t.rows && !Truthy(dto.role) ==> r.state.rows[id].role == t.rows[id].role
    ensures id in t.rows && Truthy(dto.password) ==>
              r.state.rows[id].password == c.hash(dto.password.value, salt)
    ensures id in t.rows && !Truthy(dto.password) && t.rows[id].password != "" ==>
              r.state.rows[id].password == c.hash(t.rows[id].password, salt)
    ensures id in t.rows && !Truthy(dto.password) && t.rows[id].password == "" ==>
              r.state.rows[id].password == ""
    ensures forall k :: k in t.rows && k != id ==> r.state.rows[k] == t.rows[k]
    ensures Store.WellFormed(t, IdOf) ==> Store.WellFormed(r.state, IdOf)
  {
    match UsersService.FindOne(t, id)
    case None => Step(t, Err(NotFound))
    case Some(existing) =>
      var merged := existing.(username := Merge(existing.username, dto.username),
                              password := Merge(existing.password, dto.password),
                              role := Merge(existing.role, dto.role));
      var updated := UsersService.Update(t, id, merged, c, salt);
      assert updated.1.Some?;
      Step(updated.0, Ok(updated.1.value))
  }

  /** `update(id, dto)` as evidently intended: only a password supplied in
      the body is hashed; without one the stored hash is kept. */
  function UpdateCorrected(t: UserTable, id: int, dto: UpdateUserDto, c: Primitives, salt: Salt): (r: Step<UserTable, User>)
    ensures r.state.rows.Keys == t.rows.Keys && r.state.nextId == t.nextId
    ensures id !in t.rows ==> r == Step(t, Err(NotFound))
    ensures id in t.rows ==> r.result == Ok(r.state.rows[id])
    ensures id in t.rows ==> r.state.rows[id].id == id
    ensures id in t.rows && Truthy(dto.username) ==> r.state.rows[id].username == dto.username.value
    ensures id in t.rows && !Truthy(dto.username) ==> r.state.rows[id].username == t.rows[id].username
    ensures id in t.rows && Truthy(dto.role) ==> r.state.rows[id].role == dto.role.value
    ensures id in t.rows && !Truthy(dto.role) ==> r.state.rows[id].role == t.rows[id].role
    ensures id in t.rows && Truthy(dto.password) ==>
              r.state.rows[id].password == c.hash(dto.password.value, salt)
    ensures id in t.rows && !Truthy(dto.password) ==> r.state.rows[id].password == t.rows[id].password
    ensures forall k :: k in t.rows && k != id ==> r.state.rows[k] == t.rows[k]
    ensures Store.WellFormed(t, IdOf) ==> Store.WellFormed(r.state, IdOf)
  {
    match UsersService.FindOne(t, id)
    case None => Step(t, Err(NotFound))
    case Some(existing) =>
      var merged := existing.(id := id,
                              username := Merge(existing.username, dto.username),
                              password := if Truthy(dto.password) then c.hash(dto.password.value, salt)
                                          else existing.password,
                              role := Merge(existing.role, dto.role));
      var t' := Store.Update(t, id, merged);
      Step(t', Ok(merged))
  }

  /** `delete(id)`: NotFound leaves the table alone; otherwise exactly that
      user is removed. */
  function Delete(t: UserTable, id: int): (r: Step<UserTable, ()>)
    ensures id !in t.rows ==> r == Step(t, Err(NotFound))
    ensures id in t.rows ==> r.result == Ok(()) && r.state.rows.Keys == t.rows.Keys - {id}
    ensures forall k :: k in r.state.rows ==> r.state.rows[k] == t.rows[k]
    ensures Store.WellFormed(t, IdOf) ==> Store.WellFormed(r.state, IdOf)
  {
    match UsersService.FindOne(t, id)
    case None => Step(t, Err(NotFound))
    case Some(_) => Step(UsersService.Delete(t, id), Ok(()))
  }

  /** Reading back after a write: a created user is found under its new id,
      an update is what `findOne` returns next, and after a delete the id is
      NotFound. */
  lemma WriteThenFindOne(t: UserTable, dto: CreateUserDto, id: int, upd: UpdateUserDto, c: Primitives, salt: Salt)
    ensures var created := Create(t, dto, c, salt);
            FindOne(created.state, created.result.value.id) == created.result
    ensures id in t.rows ==> FindOne(Update(t, id, upd, c, salt).state, id) == Update(t, id, upd, c, salt).result
    ensures FindOne(Delete(t, id).state, id) == Err(NotFound)
  {
  }

  /** The double hash, as written: under an exact hash scheme, a user whose
      stored hash came from `plain` is accepted with `plain` before an update
      whose body leaves the password out, and rejected with it after the
      update, although nothing asked for the password to change. */
  lemma OmittedPasswordLocksOut(t: UserTable, id: int, plain: string, c: Primitives, stored: Salt, salt: Salt, dto: UpdateUserDto)
    requires Exact(c)
    requires id in t.rows && SoleHolder(t, id, t.rows[id].username)
    requires t.rows[id].password == c.hash(plain, stored)
    requires !Truthy(dto.username) && !Truthy(dto.password)
    ensures AuthService.ValidateUser(t, c, t.rows[id].username, plain).Some?
    ensures AuthService.ValidateUser(Update(t, id, dto, c, salt).state, c, t.rows[id].username, plain).None?
  {
    var name := t.rows[id].username;
    assert c.compare(plain, c.hash(plain, stored)) == Match;
    AuthService.SoleHolderDecision(t, c, id, plain);
    var t' := Update(t, id, dto, c, salt).state;
    assert t'.rows[id].password == c.hash(c.hash(plain, stored), salt);
    assert c.hash(plain, stored) != plain;
    assert c.compare(plain, c.hash(c.hash(plain, stored), salt)) != Match;
    assert SoleHolder(t', id, name);
    AuthService.SoleHolderDecision(t', c, id, plain);
  }

  /** The corrected update keeps a user able to log in with the password they
      had whenever the body leaves the password and the username alone. */
  lemma CorrectedUpdateKeepsLogin(t: UserTable, id: int, plain: string, dto: UpdateUserDto, c: Primitives, salt: Salt)
    requires id in t.rows && SoleHolder(t, id, t.rows[id].username)
    requires !Truthy(dto.username) && !Truthy(dto.password)
    requires AuthService.ValidateUser(t, c, t.rows[id].username, plain).Some?
    ensures AuthService.ValidateUser(UpdateCorrected(t, id, dto, c, salt).state, c, t.rows[id].username, plain)
            == Some(AuthService.PublicUser(id, t.rows[id].username, Merge(t.rows[id].role, dto.role)))
  {
    var name := t.rows[id].username;
    var t' := UpdateCorrected(t, id, dto, c, salt).state;
    AuthService.SoleHolderDecision(t, c, id, plain);
    assert SoleHolder(t', id, name);
    AuthService.SoleHolderDecision(t', c, id, plain);
  }

  /** Under both definitions, a password supplied in the body is the one the
      user logs in with afterwards, under the merged username, provided no
      other user holds that username. */
  lemma NewPasswordLogsIn(t: UserTable, id: int, dto: UpdateUserDto, c: Primitives, salt: Salt)
    requires HashVerifies(c)
    requires id in t.rows && Truthy(dto.password)
    requires forall k :: k in t.rows && k != id ==> t.rows[k].username != Merge(t.rows[id].username, dto.username)
    ensures AuthService.ValidateUser(Update(t, id, dto, c, salt).state, c,
              Merge(t.rows[id].username, dto.username), dto.password.value).Some?
    ensures AuthService.ValidateUser(UpdateCorrected(t, id, dto, c, salt).state, c,
              Merge(t.rows[id].username, dto.username), dto.password.value).Some?
  {
    var name := Merge(t.rows[id].username, dto.username);
    var plain := dto.password.value;
    assert c.compare(plain, c.hash(plain, salt)) == Match;
    var t1 := Update(t, id, dto, c, salt).state;
    assert SoleHolder(t1, id, name);
    AuthService.SoleHolderDecision(t1, c, id, plain);
    var t2 := UpdateCorrected(t, id, dto, c, salt).state;
    assert SoleHolder(t2, id, name);
    AuthService.SoleHolderDecision(t2, c, id, plain);
  }
}

=== FILE: users_service.dfy ===
/** `UsersService`: the user table and the hash-on-write rule that sits in
    front of it. The `posts` relation the service loads alongside a user is
    not part of the record. */
module UsersService {
  import opened Common
  import opened Crypto
  import Store

  /** A row of the `user` table. Once stored, `password` holds whatever the
      hash primitive produced. */
  datatype User = User(id: int, username: string, password: string, role: string)

  type UserTable = Store.Table<User>

  function IdOf(u: User): int { u.id }

  /** The `role` column's default, stored when a new record leaves `role`
      out. */
  const DefaultRole := "user"

  /** A new user as a request body carries it: the id is the sequence's to
      choose, and `role` may be absent. */
  datatype NewUser = NewUser(username: string, password: string, role: Option<string>)

  /** The record a body becomes before `create` stores it: an absent role
      takes the column default. */
  function Draft(body: NewUser): (u: User)
    ensures u.username == body.username && u.password == body.password
    ensures body.role.Some? ==> u.role == body.role.value
    ensures body.role.None? ==> u.role == DefaultRole
  {
    User(0, body.username, body.password, body.role.GetOr(DefaultRole))
  }

  /** `findOne(id)`: the row with that key, or nothing. */
  function FindOne(t: UserTable, id: int): (r: Option<User>)
    ensures r.Some? <==> id in t.rows
    ensures r.Some? ==> r.value == t.rows[id]
  {
    Store.Get(t, id)
  }

  /** `findOneByUsername(username)`: some row with that username, or nothing
      when no row has it. Usernames are not unique in the schema. */
  function FindOneByUsername(t: UserTable, username: string): (r: Option<User>)
    ensures r.Some? ==> exists k :: k in t.rows && t.rows[k] == r.value
    ensures r.Some? ==> r.value.username == username
    ensures r.None? <==> forall k :: k in t.rows ==> t.rows[k].username != username
  {
    match Store.FindFirst(t, (u: User) => u.username == username)
    case None => None
    case Some(k) => Some(t.rows[k])
  }

  /** `create(user)`: the plaintext password is replaced by its hash, the
      other columns are saved as given, and the row gets a fresh id. */
  function Create(t: UserTable, user: User, c: Primitives, salt: Salt): (r: (UserTable, User))
    ensures r.1.id == t.nextId
    ensures r.1.password == c.hash(user.password, salt)
    ensures r.1.username == user.username && r.1.role == user.role
    ensures r.0.rows.Keys == t.rows.Keys + {r.1.id}
    ensures r.0.rows[r.1.id] == r.1
    ensures forall k :: k in t.rows && k != r.1.id ==> r.0.rows[k] == t.rows[k]
    ensures Store.WellFormed(t, IdOf) ==> r.1.id !in t.rows && Store.WellFormed(r.0, IdOf)
    ensures Store.WellFormed(t, IdOf) ==> forall k :: k in t.rows ==> r.0.rows[k] == t.rows[k]
  {
    var saved := user.(id := t.nextId, password := c.hash(user.password, salt));
    (Store.Insert(t, saved), saved)
  }

  /** `update(id, user)`: a truthy (non-empty) password is hashed before the
      write, any other password is written as it is; the row at `id` is
      overwritten and then read back. A missing id writes nothing and reads
      back nothing. */
  function Update(t: UserTable, id: int, user: User, c: Primitives, salt: Salt): (r: (UserTable, Option<User>))
    ensures r.0.rows.Keys == t.rows.Keys && r.0.nextId == t.nextId
    ensures id !in t.rows ==> r.0 == t && r.1 == None
    ensures id in t.rows ==> r.1 == Some(r.0.rows[id])
    ensures id in t.rows ==> r.0.rows[id].username == user.username && r.0.rows[id].role == user.role
    ensures id in t.rows ==> r.0.rows[id].id == id
    ensures id in t.rows && user.password != "" ==> r.0.rows[id].password == c.hash(user.password, salt)
    ensures id in t.rows && user.password == "" ==> r.0.rows[id].password == ""
    ensures forall k :: k in t.rows && k != id ==> r.0.rows[k] == t.rows[k]
    ensures Store.WellFormed(t, IdOf) ==> Store.WellFormed(r.0, IdOf)
  {
    var written := if user.password != "" then user.(password := c.hash(user.password, salt)) else user;
    var t' := Store.Update(t, id, written.(id := id));
    (t', Store.Get(t', id))
  }

  /** `delete(id)`: exactly that row disappears. */
  function Delete(t: UserTable, id: int): (r: UserTable)
    ensures r.rows.Keys == t.rows.Keys - {id}
    ensures forall k :: k in r.rows ==> r.rows[k] == t.rows[k]
    ensures Store.WellFormed(t, IdOf) ==> Store.WellFormed(r, IdOf)
  {
    Store.Delete(t, id)
  }

  /** Only the row at `id` holds `username`. */
  predicate SoleHolder(t: UserTable, id: int, username: string) {
    && id in t.rows
    && t.rows[id].username == username
    && forall k :: k in t.rows && k != id ==> t.rows[k].username != username
  }

  /** When exactly one row holds a username, the lookup by username finds it. */
  lemma FindsSoleHolder(t: UserTable, id: int, username: string)
    requires SoleHolder(t, id, username)
    ensures FindOneByUsername(t, username) == Some(t.rows[id])
  {
    var r := FindOneByUsername(t, username);
    assert r.Some?;
    var k :| k in t.rows && t.rows[k] == r.value;
    assert k == id;
  }
}
